=== FILE: README.md ===
# Food rescue marketplace: a Dafny model of its core logic

This project models the logic under the two "Tejab Qol" surplus-food
prototypes: a consumer app that lets a user browse Tashkent stores, reserve a
discounted surprise bag and pay for it, and a merchant side that lists offers.

It models these pieces:

- **Persistence gateway** (`Storage`). Browser storage holds two independent
  collections, offers and orders, under their own keys. JSON
  serialisation is treated as the identity.
- **Discount badge arithmetic** (`Utils`). `calculateDiscount` is computed
  over exact rationals, with `Math.round` as floor(x + 1/2).
- **Merchant offer form** (`OfferForm`). This covers the initial state, field
  edits, the submit guard and the text-to-number conversion of the payload.
- **Catalog** (`Catalog`). Both copies of the five stores and their bags are
  modelled, with the invariants the workflow relies on without checking them.
- **Home-screen search and category chips, and the orders screen's sort**
  (`StoreFilter`).
- **Reservation workflow of the persistent app** (`App`, for `src/App.jsx`).
  Each handler is a total function on a world made of the React state, the
  browser storage and the pending payment timers. An event step function
  says which buttons each screen offers, and an invariant is proved for every
  reachable state.
- **Reservation workflow of the in-memory prototype** (`TejabQolApp`, for
  `App.tsx`). Orders live only in component state. The payment callback
  prepends to the orders it captured when payment was confirmed.

Shared pieces:

- `Types`: the records.
- `Checkout`: building an order when payment completes, including the
  four-digit pickup code drawn from `Math.random()`.
- `Text`: ASCII `toLowerCase`, `includes`, the decimal `toString()` and
  `Number()`.
- `Seqs`: an order-preserving `filter`.

Clocks and randomness become parameters: `Checkout.Draw` carries the order id,
`Date.now()` and the random sample. `setTimeout` becomes an explicit later step
(`App.CompletePayment`, `App.Step` with `TimerFires`).

Three behaviours of the code worth knowing:

- The offers seed is empty, and reading it does not store it.
- `resetDemo` removes both the offers key and the orders key, not only the orders.
- Reserving never checks the bag's stock, and no reservation decrements a bag's
  quantity. The catalog is a constant in the model.

## Model

| member | source | states |
|---|---|---|
| `Text.ToLower` | src/App.jsx:79-80 | The lower-cased text has the same length, with each ASCII capital replaced by its small letter and every other character kept. `Text.ToLowerIsLower` adds that no capital remains and that lowering twice is lowering once. |
| `Text.Includes` | src/App.jsx:79-80 | `includes` is true exactly when the needle occurs in the text at some position. |
| `Text.DecimalString` | src/App.jsx:59 | `toString()` of a non-negative integer is a non-empty run of digits with no leading zero, and 0 is written "0". With `ParseDecimalString` this fixes the numeral of every number. |
| `Text.ParseDecimalString` | src/App.jsx:59 | Reading back the decimal text of `n` gives `n`, so the text denotes the number it was made from. |
| `Text.FourDigitNumeral` | tejab-qol---food-rescue-uzbekistan/App.tsx:180 | Every integer from 1000 to 9999 is written with exactly four characters. |
| `Text.ToNumber` | src/components/OfferForm.jsx:27-29 | `Number("")` is 0. A run of digits converts to the number it denotes, leading zeros included, and a minus sign followed by digits converts to its negation. Any text that converts to an integer has one of these forms. |
| `Text.NumberIgnoresLeadingZero` | src/components/OfferForm.jsx:27-29 | A leading zero does not change the number a run of digits converts to, with or without a minus sign: `Number("010")` is 10. |
| `Text.NumberOfDecimalString` | src/components/OfferForm.jsx:27-29 | `Number` of the decimal text of a non-negative integer gives back that integer. |
| `Types.BottomNavHiddenExactlyInPurchaseFlow` | tejab-qol---food-rescue-uzbekistan/App.tsx:468 | The bottom bar is hidden exactly on the store detail and checkout screens. It shows on HOME, MAP, ORDERS and PROFILE. |
| `Catalog.FindStore` | src/App.jsx:27 | `find` by id gives nothing exactly when no store has the id. Otherwise it gives the first store carrying that id. |
| `Catalog.FoundStoreHasBag` | src/App.jsx:52 | In a well-formed catalog, every store a lookup returns has a bag keyed by its id. That bag belongs to the store, is named `bag_<id>`, costs more than 0 and less than its value, and has stock. |
| `Catalog.SrcWellFormed` | src/lib/constants.js:9-88 | The store ids are "1" to "5" and distinct. The bags are keyed by exactly those ids. Every bag fits its store (id `bag_<id>`, `storeId`, 0 < discount price < original price, quantity > 0). |
| `Catalog.TejabQolWellFormed` | tejab-qol---food-rescue-uzbekistan/constants.ts:4-83 | The prototype's catalog meets the same invariants, with ids "1" to "5". |
| `Catalog.CatalogsAgreeExceptImages` | tejab-qol---food-rescue-uzbekistan/constants.ts:77-83 | The two catalogs have the same stores in the same order and differ in every image URL and nothing else. Their bag maps, with prices and quantities, are identical. |
| `Utils.RoundDiv` | src/lib/utils.js:13 | `Math.round(n / d)` is the integer `r` with r ≤ n/d + 1/2 < r + 1, so halves round up. |
| `Utils.CalculateDiscount` | src/lib/utils.js:11-14 | The result is 0 when the original value is 0 or not above the price. Otherwise, for a positive original value, it is the saved percentage 100·(original − price)/original rounded half up. |
| `Utils.DiscountInRange` | src/lib/utils.js:12-13 | For 0 ≤ price < original the discount lies between 0 and 100. |
| `Utils.FreeIsHundred` | src/lib/utils.js:13 | A price of 0 against a positive original value is a 100% discount. |
| `Utils.HalfPriceIsFifty` | src/lib/utils.js:13 | Price p against original value 2p is a 50% discount for every p > 0. |
| `Utils.DiscountMonotonic` | src/lib/utils.js:12-13 | With the original value fixed and positive, a higher price never shows a larger discount. |
| `Seqs.FilterCounts` | src/lib/storage.js:30 | `filter` keeps every copy of an element the predicate accepts and no copy of one it rejects. |
| `Storage.GetOffers` | src/lib/storage.js:10-14 | Reads the offers key, giving the empty seed when nothing is stored. Its meaning is fixed by `Storage.EmptyStorageReads` and by the round trips of `SaveOffers`, `AddOffer` and `DeleteOffer`. |
| `Storage.GetOrders` | src/lib/storage.js:36-39 | Reads the orders key, giving `[]` when nothing is stored. Its meaning is fixed by `Storage.EmptyStorageReads` and by the round trip of `SaveOrder`. |
| `Storage.SaveOffers` | src/lib/storage.js:10-18 | After saving, reading the offers returns exactly the saved list, and the orders key is untouched. |
| `Storage.AddOffer` | src/lib/storage.js:20-26 | The result is one longer than the stored offers. Its head is the given offer with `id` and `createdAt` overwritten by the fresh id and the time. Its tail is the previous offers. Reading storage afterwards returns the result, and orders are untouched. |
| `Storage.DeleteOffer` | src/lib/storage.js:28-33 | No kept record has the id, and every stored record with another id is kept, with every copy kept, in the original relative order. Reading storage afterwards returns the result, and orders are untouched. |
| `Storage.DeleteAbsentIsNoOp` | src/lib/storage.js:30 | Deleting an id that no stored offer has returns, and leaves readable, the offers as they were. |
| `Storage.DeleteTwice` | src/lib/storage.js:28-33 | Deleting the same id twice has the same result and storage as deleting it once. |
| `Storage.DeleteUndoesAdd` | src/lib/storage.js:20-33 | If the fresh id was not already stored, adding an offer and then deleting its fresh id leaves the offers as they were before. |
| `Storage.SaveOrder` | src/lib/storage.js:41-47 | The order is put in front of the stored orders, and reading orders returns that list. The offers key is untouched. |
| `Storage.ResetDemo` | src/lib/storage.js:49-53 | After a reset both the offers and the orders read as empty, and the call returns `[]`. |
| `Storage.EmptyStorageReads` | src/lib/storage.js:6-12 | On storage holding nothing, the offers read as the empty seed and the orders as `[]`. A reset returns storage to exactly that state. |
| `OfferForm.HandleChange` | src/components/OfferForm.jsx:15-18 | The named field takes the typed text, and every other field keeps its value. |
| `OfferForm.HandleSubmit` | src/components/OfferForm.jsx:20-31 | Submission is refused exactly when the title or the place is empty. Otherwise the payload carries title, place, category and pickup window unchanged, and price, original value and quantity converted with `Number`. It has no id or timestamp. |
| `OfferForm.InitialFormSubmission` | src/components/OfferForm.jsx:4-13 | The form as opened is refused. With a title, a place and a price typed in, it submits quantity 1, category Bakery, pickup 18:00–19:00 and the blank original value as 0. |
| `OfferForm.AddOfferScenario` | src/lib/storage.js:20-26 | On fresh storage there are no offers. Submitting "X" at 10000 against 20000 and adding it gives one stored offer, stamped with the fresh id and time, whose discount is 50. |
| `Checkout.PickupNumber` | src/App.jsx:59 | `Math.floor(1000 + r·9000)` lies in 1000..9999 for every sample r in [0, 1). |
| `Checkout.PickupCode` | tejab-qol---food-rescue-uzbekistan/App.tsx:180 | The pickup code is four digits with a non-zero first digit, and denotes the drawn number. |
| `Checkout.NewOrder` | src/App.jsx:53-61 | The order built on completion records the purchase: the store's id, the bag's id, RESERVED, paid at the bag's discount price. It carries the drawn id and time and the four-digit code of the drawn number. The prototype builds the same record (tejab-qol---food-rescue-uzbekistan/App.tsx:174-182). |
| `StoreFilter.FilterStores` | src/App.jsx:77-82 | The listed stores are an order-preserving subsequence of the catalog. A store is listed exactly when its category matches the chip ("All" or equal) and the search term occurs, ignoring case, in its name or its category name. |
| `StoreFilter.NoFilterListsEverything` | src/App.jsx:77-82 | With an empty search and "All", every store is listed, in order. |
| `StoreFilter.CategoryNarrowsAll` | src/App.jsx:78 | The listing under one category chip is a subsequence of the "All" listing for the same search term. |
| `StoreFilter.ToggleCategory` | src/App.jsx:124 | Clicking a chip selects its category exactly when it was not already selected. Otherwise the filter falls back to "All". |
| `StoreFilter.ToggleTwice` | src/App.jsx:124 | Two clicks on the same chip return to the starting filter when that was "All" or that chip. |
| `StoreFilter.SortNewestFirst` | src/App.jsx:305 | The orders screen shows a permutation of the orders with timestamps non-increasing. |
| `StoreFilter.SortKeepsSortedOrders` | src/App.jsx:305 | Orders that are already newest first are shown exactly as they are. |
| `App.Mount` | src/App.jsx:11-24 | The app opens on HOME with no store selected, not loading, "All" and an empty search. Its orders are the stored orders. |
| `App.HandleStoreClick` | src/App.jsx:26-31 | An id that no catalog store has changes nothing. A known id selects that catalog store and opens its detail screen, with nothing else changed. |
| `App.HandleReserve` | src/App.jsx:42-44 | Reserve always goes to CHECKOUT and changes nothing else. No stock is checked. |
| `App.ConfirmPayment` | src/App.jsx:46-51 | With no selected store nothing changes. Otherwise loading turns on and one completion, capturing the selected store, is scheduled. Storage is untouched. |
| `App.CompletePayment` | src/App.jsx:51-69 | For a store with a bag, one order is put in front of the stored orders and persisted. It is reserved, for that store and its bag, at the bag's discount price, with the drawn id and time and a four-digit code. The in-memory orders equal the stored ones, offers are untouched, loading is off, the view is ORDERS and nothing else changes. For a store without a bag nothing changes. |
| `App.VisibleStores` | src/App.jsx:77-82 | The home screen lists, in catalog order, exactly the catalog stores that match the chip and whose name or category contains the search term, ignoring case. |
| `App.OrdersView` | src/App.jsx:305-320 | The orders screen shows the orders newest first, without the orders whose store is not in the catalog. Every copy of a shown order is shown. |
| `App.Enabled` | src/App.jsx:105-159 | The search box, the "All" chip and the category chips are on HOME. A store is opened from HOME or MAP. Reserve and back to HOME are on the detail screen. Pay and back to the detail screen are on checkout, while not loading. The bottom bar (line 413) moves between HOME, MAP, ORDERS and PROFILE. `App.StepPreservesInv` is proved for every event this allows. |
| `App.Step` | src/App.jsx:26-124 | Each event runs its handler. Only a payment completion or a confirmed reset writes to storage, and only the reset touches the stored offers. |
| `App.ResetDemoClicked` | src/App.jsx:357-362 | Once confirmed, both stored collections read empty and the in-memory orders are emptied. Declined, nothing changes. |
| `App.MountEstablishesInv` | src/App.jsx:22-24 | The invariant holds once the app has mounted on any storage contents. |
| `App.StepPreservesInv` | src/App.jsx:26-70 | Every event the screens offer keeps the invariant. The in-memory orders equal the stored orders. Detail and checkout always have a selected store. Every selected or captured store is a catalog store. |
| `App.PaymentCompletes` | src/App.jsx:52-61 | A completion captured for a catalog store always finds that store's bag. It records the purchase at a price below the bag's value. |
| `App.OrdersViewAfterPayment` | src/App.jsx:64-65 | If stored orders are newest first, each for a catalog store, and the clock has not gone back, the orders screen after a payment shows every order, exactly as stored. |
| `App.PurchaseScenario` | src/App.jsx:26-68 | The sequence fresh storage → open store "1" → reserve → pay with Click → timer fires yields exactly one stored order. That order is for store "1", reserved, at 20000, with a four-digit code, on the ORDERS screen. |
| `TejabQolApp.HandleStoreClick` | tejab-qol---food-rescue-uzbekistan/App.tsx:147-151 | Unknown ids cause no transition. A known id selects that catalog store and opens STORE_DETAIL. |
| `TejabQolApp.HandleReserve` | tejab-qol---food-rescue-uzbekistan/App.tsx:163-165 | Reserve always goes to CHECKOUT, whatever the bag's quantity, and changes nothing else. |
| `TejabQolApp.ConfirmPayment` | tejab-qol---food-rescue-uzbekistan/App.tsx:167-172 | With no selected store it is a no-op with nothing scheduled. Otherwise loading turns on and the completion captures the store and the current orders. |
| `TejabQolApp.CompletePayment` | tejab-qol---food-rescue-uzbekistan/App.tsx:172-187 | The new orders are one reserved order for the captured store's bag, at its discount price with a four-digit code, in front of the captured orders. Nothing is persisted. Loading is off, the view is ORDERS and nothing else changes. |
| `TejabQolApp.PayThenComplete` | tejab-qol---food-rescue-uzbekistan/App.tsx:167-187 | Confirming then completing for a catalog store prepends one reserved order for that store's bag to the orders there at confirmation. The selected store is kept. |
| `TejabQolApp.ActiveOrders` | tejab-qol---food-rescue-uzbekistan/App.tsx:377 | The active orders are exactly the RESERVED orders, every copy kept, in their existing order. |
| `TejabQolApp.ShownOrders` | tejab-qol---food-rescue-uzbekistan/App.tsx:377-392 | The orders screen draws exactly the RESERVED orders whose store is in the catalog, every copy kept, in their existing order. |
| `TejabQolApp.NewOrderShownFirst` | tejab-qol---food-rescue-uzbekistan/App.tsx:184-186 | After a payment for a catalog store, the new order is the first card, above the cards shown from the orders captured at confirmation. |
| `TejabQolApp.InitialOrdersAllReserved` | tejab-qol---food-rescue-uzbekistan/App.tsx:137-140 | The app starts with no orders, so every order is RESERVED, the active orders are all orders and the orders screen is empty. |
| `TejabQolApp.ActiveOrdersAreAllOrders` | tejab-qol---food-rescue-uzbekistan/App.tsx:174-184 | Completions create only RESERVED orders, so while every order is reserved the orders screen lists all orders. |
| `TejabQolApp.StockBadge` | tejab-qol---food-rescue-uzbekistan/App.tsx:52-64 | A store card reads "Sold out" exactly when the store has no bag or the bag's quantity is at most 0. |
| `TejabQolApp.NoCatalogStoreSoldOut` | tejab-qol---food-rescue-uzbekistan/constants.ts:77-83 | No store of the catalog starts out sold out. |

## Left out

- Browser storage and `JSON.stringify`/`JSON.parse` become a record with one
  optional slot per key. Serialisation is the identity, so corrupt stored
  data, a `JSON.parse` exception, is not modelled.
- `generateId`, `Date.now()` and `Math.random()` become parameters: the fresh
  id and time of `AddOffer`, and `Checkout.Draw`. No id uniqueness is claimed,
  because the code does not guarantee it.
- `setTimeout`'s 1500 ms delay, React state batching and render timing are not
  modelled. A completion is a separate step that may run against any later
  state.
- The hint and review generators and the state they fill (`bagHint`,
  `isGeneratingHint`, `storeReviews`) are foreign or random services whose
  text is only displayed.
- All rendering is left out, including the map pins, the profile screen's
  totals and `formatCurrency`. So are the floating-point store fields: rating,
  distance, latitude and longitude.
- The prototype's home screen lists every catalog store, because its category
  chips have no handler. There is no filtering logic to model there.
- The "cheapest" and "closest" sort options of the filters bar have no
  implementation to model.
- `window.confirm` is a boolean input, `ResetDemoClicked`'s `confirmed`.
- The browser's own form validation (`required`, `min`) runs before
  `handleSubmit` and is not modelled. Only the handler's title/place guard is.
- `App.Enabled` approximates which buttons each screen renders. For example,
  "Go to Home" on the empty orders screen is folded into the bottom bar's
  moves.
- Utils.CalculateDiscount: computes over exact integers and rationals, not
  IEEE doubles. A ratio that floating point puts just below a .5 boundary may
  round differently in the browser. NaN inputs are not modelled.
- Text.ToLower: folds ASCII letters only, not the full Unicode case mapping
  of `toLowerCase`.
- Text.ToNumber: handles only the empty string and optionally negated digit
  runs. Whitespace trimming, `+`, fractions, exponents and hexadecimal map to
  `NotModelled`. Numbers are exact unbounded integers, while the browser's
  doubles are exact only up to 2^53, so `Number` of a longer numeral rounds
  there and not here.
- Text.DecimalString: writes every non-negative integer as plain digits.
  From 10^21 on, the browser's `toString` switches to exponent form
  (`"1e+21"`), and above 2^53 the value itself is rounded. The code formats
  only four-digit pickup codes and bag quantities.
- StoreFilter.SortNewestFirst: the order among orders with equal timestamps
  is not stated, although the insertion used keeps their input order, as
  JavaScript's stable sort does.

=== FILE: app.dfy ===
/** The consumer app of `src/App.jsx`: browse and search stores, open one,
    reserve its surprise bag, pay, and see the orders, which are persisted
    through the storage gateway.

    Each handler is a total function on the whole world (the React state,
    browser storage and the pending `setTimeout` callbacks). `confirmPayment`
    only schedules a callback that has captured the selected store; the
    callback running later is its own step. */
module App {
  import opened Types
  import opened Catalog
  import opened Storage
  import opened StoreFilter
  import opened Checkout
  import Seqs

  /** The React state of the component, minus the hint/review text. */
  datatype AppState = AppState(
    view: View,
    selected: Option<Store>,
    orders: seq<Order>,
    loading: bool,
    category: CategoryFilter,
    search: string)

  /** A scheduled payment completion and the store its closure captured. */
  datatype Pending = Pending(store: Store)

  datatype World = World(app: AppState, storage: LocalStorage, timers: seq<Pending>)

  /** First render plus the mount effect `setOrders(storage.getOrders())`. */
  function Mount(st: LocalStorage): (w: World)
    ensures w.app.orders == GetOrders(st) && w.storage == st
    ensures w.app.view == Home && w.app.selected.None? && !w.app.loading
    ensures w.app.category == All && w.app.search == "" && w.timers == []
  {
    World(AppState(Home, None, GetOrders(st), false, All, ""), st, [])
  }

  /** `handleStoreClick`: an id the catalog does not know changes nothing;
      a known id opens that store's detail screen. */
  function HandleStoreClick(a: AppState, id: string): (a': AppState)
    ensures (forall i :: 0 <= i < |Src.stores| ==> Src.stores[i].id != id) ==> a' == a
    ensures (exists i :: 0 <= i < |Src.stores| && Src.stores[i].id == id) ==>
      && a'.selected.Some? && a'.selected.value in Src.stores && a'.selected.value.id == id
      && a' == a.(view := StoreDetail, selected := a'.selected)
  {
    match FindStore(Src.stores, id)
    case None => a
    case Some(store) => a.(selected := Some(store), view := StoreDetail)
  }

  /** `handleReserve`: straight to checkout; no stock is checked. */
  function HandleReserve(a: AppState): (a': AppState)
    ensures a'.view == Checkout
    ensures a'.(view := a.view) == a
  {
    a.(view := Checkout)
  }

  /** `confirmPayment`: without a selected store nothing happens; otherwise
      the spinner shows and a completion for that store is scheduled. The
      payment method does not influence anything. */
  function ConfirmPayment(w: World, provider: PaymentMethod): (w': World)
    ensures w.app.selected.None? ==> w' == w
    ensures w.app.selected.Some? ==>
      && w'.app == w.app.(loading := true)
      && w'.storage == w.storage
      && w'.timers == w.timers + [Pending(w.app.selected.value)]
  {
    match w.app.selected
    case None => w
    case Some(store) => w.(app := w.app.(loading := true), timers := w.timers + [Pending(store)])
  }

  /** The `setTimeout` callback of `confirmPayment`. It reads the bag of the
      captured store, builds the order and persists it with `saveOrder`,
      then shows the orders screen. If the catalog had no bag for the store,
      reading `bag.id` would throw and nothing would change. */
  function CompletePayment(w: World, p: Pending, d: Draw): (w': World)
    requires ValidDraw(d)
    ensures p.store.id !in Src.bags ==> w' == w
    ensures p.store.id in Src.bags ==>
      && |w'.app.orders| == |GetOrders(w.storage)| + 1
      && RecordsPurchase(w'.app.orders[0], p.store, Src.bags[p.store.id])
      && IsPickupCode(w'.app.orders[0].pickupCode)
      && w'.app.orders[0].id == d.orderId && w'.app.orders[0].timestamp == d.now
      && w'.app.orders[1..] == GetOrders(w.storage)
      && w'.app.orders == GetOrders(w'.storage)
      && w'.storage.offers == w.storage.offers
      && !w'.app.loading && w'.app.view == Orders
      && w'.app == w.app.(orders := w'.app.orders, loading := false, view := Orders)
      && w'.timers == w.timers
  {
    if p.store.id !in Src.bags then w
    else
      var order := NewOrder(p.store, Src.bags[p.store.id], d);
      var u := SaveOrder(w.storage, order);
      w.(app := w.app.(orders := u.list, loading := false, view := Orders), storage := u.storage)
  }

  /** The "Reset Demo Data" button: on confirmation both stored collections
      are removed and the in-memory orders emptied; otherwise nothing. */
  function ResetDemoClicked(w: World, confirmed: bool): (w': World)
    ensures !confirmed ==> w' == w
    ensures confirmed ==>
      && GetOrders(w'.storage) == [] && GetOffers(w'.storage) == []
      && w'.app == w.app.(orders := [])
      && w'.timers == w.timers
  {
    if confirmed then w.(app := w.app.(orders := []), storage := ResetDemo(w.storage).storage)
    else w
  }

  /** The stores listed on the home screen: the catalog stores in the
      chosen category whose name or category contains the search term. */
  function VisibleStores(a: AppState): (r: seq<Store>)
    ensures Seqs.IsSubsequence(r, Src.stores)
    ensures forall s :: s in r <==>
      && s in Src.stores
      && MatchesCategory(a.category, s)
      && (ContainsIgnoringCase(s.name, a.search) || ContainsIgnoringCase(CategoryName(s.category), a.search))
  {
    FilterStores(Src.stores, a.category, a.search)
  }

  /** An order the orders screen draws a card for: its store is found in
      the catalog; any other order is skipped. */
  predicate HasCatalogStore(o: Order) {
    FindStore(Src.stores, o.storeId).Some?
  }

  /** The orders screen: the orders sorted newest first, without those whose
      store the catalog does not know. Every copy of a drawn order is drawn. */
  function OrdersView(a: AppState): (r: seq<Order>)
    ensures NewestFirst(r)
    ensures forall o :: o in r <==> o in a.orders && HasCatalogStore(o)
    ensures forall o | o in a.orders ::
      multiset(r)[o] == if HasCatalogStore(o) then multiset(a.orders)[o] else 0
  {
    var sorted := SortNewestFirst(a.orders);
    FilterKeepsNewestFirst(HasCatalogStore, sorted);
    Seqs.FilterCounts(HasCatalogStore, sorted);
    assert forall o :: o in sorted <==> o in a.orders by {
      assert forall o :: o in sorted <==> o in multiset(sorted);
    }
    Seqs.Filter(HasCatalogStore, sorted)
  }

  /** User and timer events, one per handler or button. */
  datatype Event =
    | SelectStore(id: string)
    | Reserve
    | Pay(provider: PaymentMethod)
    | TimerFires(index: nat, draw: Draw)
    | Navigate(target: View)
    | TypeSearch(term: string)
    | ChipAll
    | Chip(category: StoreCategory)
    | ResetDemoData(confirmed: bool)

  /** Which events the rendered screen offers. */
  predicate Enabled(w: World, e: Event) {
    var a := w.app;
    match e
    case SelectStore(_) => a.view == Home || a.view == Map
    case Reserve => a.view == StoreDetail && a.selected.Some?
    case Pay(_) => a.view == Checkout && a.selected.Some? && !a.loading
    case TimerFires(i, d) => i < |w.timers| && ValidDraw(d)
    case Navigate(v) =>
      || (ShowsBottomNav(a.view) && ShowsBottomNav(v))          // bottom bar, "Go to Home"
      || (a.view == StoreDetail && a.selected.Some? && v == Home)  // back from the detail screen
      || (a.view == Checkout && a.selected.Some? && !a.loading && v == StoreDetail)
    case TypeSearch(_) => a.view == Home
    case ChipAll => a.view == Home
    case Chip(_) => a.view == Home
    case ResetDemoData(_) => a.view == Orders
  }

  /** One event. Only a payment completion or a confirmed reset writes to
      storage, and only the reset touches the stored offers. */
  function Step(w: World, e: Event): (w': World)
    requires Enabled(w, e)
    ensures !e.TimerFires? && !e.ResetDemoData? ==> w'.storage == w.storage
    ensures !e.ResetDemoData? ==> w'.storage.offers == w.storage.offers
  {
    match e
    case SelectStore(id) => w.(app := HandleStoreClick(w.app, id))
    case Reserve => w.(app := HandleReserve(w.app))
    case Pay(m) => ConfirmPayment(w, m)
    case TimerFires(i, d) =>
      CompletePayment(w.(timers := w.timers[..i] + w.timers[i + 1..]), w.timers[i], d)
    case Navigate(v) => w.(app := w.app.(view := v))
    case TypeSearch(term) => w.(app := w.app.(search := term))
    case ChipAll => w.(app := w.app.(category := All))
    case Chip(c) => w.(app := w.app.(category := ToggleCategory(w.app.category, c)))
    case ResetDemoData(confirmed) => ResetDemoClicked(w, confirmed)
  }

  /** What holds in every state the app can reach from mounting:
      the in-memory orders are the stored orders, the detail and checkout
      screens always have a store, and every store held in state or in a
      pending callback comes from the catalog. */
  ghost predicate Inv(w: World) {
    && w.app.orders == GetOrders(w.storage)
    && (w.app.view == StoreDetail || w.app.view == Checkout ==> w.app.selected.Some?)
    && (w.app.selected.Some? ==> w.app.selected.value in Src.stores)
    && (forall i :: 0 <= i < |w.timers| ==> w.timers[i].store in Src.stores)
  }

  lemma MountEstablishesInv(st: LocalStorage)
    ensures Inv(Mount(st))
  {
  }

  /** Every enabled event keeps the invariant. */
  lemma StepPreservesInv(w: World, e: Event)
    requires Inv(w) && Enabled(w, e)
    ensures Inv(Step(w, e))
  {
    match e
    case TimerFires(i, d) =>
      var rest := w.timers[..i] + w.timers[i + 1..];
      assert forall j :: 0 <= j < |rest| ==> rest[j] in w.timers;
      PaymentCompletes(w.(timers := rest), w.timers[i], d);
    case Pay(m) =>
      var w' := ConfirmPayment(w, m);
      assert forall j :: 0 <= j < |w'.timers| ==> w'.timers[j] in w.timers || w'.timers[j].store == w.app.selected.value;
    case _ =>
  }

  /** The catalog invariant makes the completion callback succeed: a
      pending payment for a catalog store always records the purchase of
      that store's bag. */
  lemma {:induction false} PaymentCompletes(w: World, p: Pending, d: Draw)
    requires ValidDraw(d) && p.store in Src.stores
    ensures p.store.id in Src.bags
    ensures
      var o := CompletePayment(w, p, d).app.orders[0];
      && RecordsPurchase(o, p.store, Src.bags[p.store.id])
      && o.totalPaid < Src.bags[p.store.id].originalPrice
  {
    SrcWellFormed();
    var i :| 0 <= i < |Src.stores| && Src.stores[i] == p.store;
    assert p.store.id in Src.bags;
  }

  /** With orders stored newest first, each for a catalog store, and a
      clock that has not gone back, the orders screen after a payment shows
      every order, in the order they are stored. */
  lemma {:induction false} OrdersViewAfterPayment(w: World, p: Pending, d: Draw)
    requires ValidDraw(d) && p.store.id in Src.bags
    requires NewestFirst(GetOrders(w.storage))
    requires forall i :: 0 <= i < |GetOrders(w.storage)| ==> HasCatalogStore(GetOrders(w.storage)[i])
    requires forall i :: 0 <= i < |GetOrders(w.storage)| ==> GetOrders(w.storage)[i].timestamp <= d.now
    ensures OrdersView(CompletePayment(w, p, d).app) == CompletePayment(w, p, d).app.orders
  {
    var a := CompletePayment(w, p, d).app;
    var stored := GetOrders(w.storage);
    assert a.orders == [a.orders[0]] + stored;
    ConsNewestFirst(a.orders[0], stored);
    BaggedStoreIsFound(p.store.id);
    assert HasCatalogStore(a.orders[0]);
    assert forall i :: 1 <= i < |a.orders| ==> a.orders[i] == stored[i - 1];
    OrdersViewOfKnownSorted(a);
  }

  /** Orders stored newest first, each for a catalog store, are shown
      exactly as stored. */
  lemma {:induction false} OrdersViewOfKnownSorted(a: AppState)
    requires NewestFirst(a.orders)
    requires forall i :: 0 <= i < |a.orders| ==> HasCatalogStore(a.orders[i])
    ensures OrdersView(a) == a.orders
  {
    SortKeepsSortedOrders(a.orders);
    Seqs.FilterKeepsAll(HasCatalogStore, a.orders);
  }

  /** Every store id the bags are keyed by is found in the catalog. */
  lemma BaggedStoreIsFound(id: string)
    requires id in Src.bags
    ensures FindStore(Src.stores, id).Some?
  {
    SrcWellFormed();
  }

  /** The scripted purchase: fresh storage, open store "1", reserve, pay
      with Click; once the callback runs there is exactly one order, for
      store "1", reserved, 20000 sum, with a four-digit pickup code. */
  lemma PurchaseScenario(d: Draw)
    requires ValidDraw(d)
    ensures
      var w0 := Mount(Empty);
      var w1 := Step(w0, SelectStore("1"));
      var w2 := Step(w1, Reserve);
      var w3 := Step(w2, Pay(Click));
      var w4 := Step(w3, TimerFires(0, d));
      && |w4.app.orders| == 1
      && w4.app.orders == GetOrders(w4.storage)
      && w4.app.orders[0].storeId == "1"
      && w4.app.orders[0].status == Reserved
      && w4.app.orders[0].totalPaid == 20000
      && IsPickupCode(w4.app.orders[0].pickupCode)
      && w4.app.view == Orders
  {
    assert FindStore(Src.stores, "1") == Some(Src.stores[0]);
  }
}

=== FILE: catalog.dfy ===
/** The hard-coded catalog: five Tashkent stores and one surprise bag per
    store, keyed by store id. Both prototypes carry their own copy. */
module Catalog {
  import opened Types

  datatype Catalog = Catalog(stores: seq<Store>, bags: map<string, Bag>)

  /** `MOCK_STORES.find(s => s.id === id)`: the first store with that id. */
  function FindStore(stores: seq<Store>, id: string): (r: Option<Store>)
    ensures r.None? <==> forall i :: 0 <= i < |stores| ==> stores[i].id != id
    ensures r.Some? ==> exists i :: FirstWithId(stores, id, i) && stores[i] == r.value
  {
    if stores == [] then None
    else if stores[0].id == id then (assert FirstWithId(stores, id, 0); Some(stores[0]))
    else
      assert forall i :: FirstWithId(stores[1..], id, i) ==> FirstWithId(stores, id, i + 1);
      FindStore(stores[1..], id)
  }

  /** Position `i` holds the first store whose id is `id`. */
  ghost predicate FirstWithId(stores: seq<Store>, id: string, i: int) {
    && 0 <= i < |stores|
    && stores[i].id == id
    && forall j :: 0 <= j < i ==> stores[j].id != id
  }

  function Ids(stores: seq<Store>): (ids: seq<string>)
    ensures |ids| == |stores|
    ensures forall i :: 0 <= i < |stores| ==> ids[i] == stores[i].id
  {
    if stores == [] then [] else [stores[0].id] + Ids(stores[1..])
  }

  /** The facts about the catalog that the reservation workflow relies on
      without checking them. */
  ghost predicate WellFormed(c: Catalog) {
    // store ids are pairwise distinct
    && (forall i, j :: 0 <= i < j < |c.stores| ==> c.stores[i].id != c.stores[j].id)
    // the bags are keyed by exactly the store ids
    && (forall i :: 0 <= i < |c.stores| ==> c.stores[i].id in c.bags)
    && (forall k :: k in c.bags ==> exists i :: 0 <= i < |c.stores| && c.stores[i].id == k)
    // each bag belongs to the store whose id keys it and is sellable
    && (forall k :: k in c.bags ==> BagFits(k, c.bags[k]))
  }

  ghost predicate BagFits(key: string, b: Bag) {
    && b.storeId == key
    && b.id == "bag_" + key
    && 0 < b.discountPrice < b.originalPrice
    && b.quantity > 0
  }

  /** Every store a lookup can return has its own bag: `MOCK_BAGS[store.id]`
      is defined, belongs to the store and costs less than its value. */
  lemma {:induction false} FoundStoreHasBag(c: Catalog, id: string)
    requires WellFormed(c)
    ensures FindStore(c.stores, id).Some? ==>
      var s := FindStore(c.stores, id).value;
      && s.id == id
      && s.id in c.bags
      && BagFits(s.id, c.bags[s.id])
  {
    if FindStore(c.stores, id).Some? {
      var i :| FirstWithId(c.stores, id, i) && c.stores[i] == FindStore(c.stores, id).value;
      assert c.stores[i].id in c.bags;
    }
  }

  const Src: Catalog := Catalog(
    [ Store("1", "Safia Bakery", "Famous local bakery chain with fresh pastries and cakes.", Bakery,
            "https://images.unsplash.com/photo-1509440159596-0249088772ff?q=80&w=600&auto=format&fit=crop",
            "20:00", "22:00", "Amir Temur Ave, 15"),
      Store("2", "Osh Markazi (Plov Center)", "Traditional Uzbek Plov and salads.", Restaurant,
            "https://images.unsplash.com/photo-1627308595229-7830a5c91f9f?q=80&w=600&auto=format&fit=crop",
            "14:00", "15:00", "Shakhriston St, 5"),
      Store("3", "Korzinka Supermarket", "Daily fresh produce and bakery items.", Grocery,
            "https://images.unsplash.com/photo-1542838132-92c53300491e?q=80&w=600&auto=format&fit=crop",
            "22:00", "23:30", "Sebzar St, 8"),
      Store("4", "Bon!", "French style cafe with sandwiches and coffee.", Cafe,
            "https://images.unsplash.com/photo-1554118811-1e0d58224f24?q=80&w=600&auto=format&fit=crop",
            "19:00", "20:30", "Oybek St, 24"),
      Store("5", "Evos", "Popular fast food chain, lavash and burgers.", FastFood,
            "https://images.unsplash.com/photo-1561758033-d8f5c665b216?q=80&w=600&auto=format&fit=crop",
            "23:00", "00:00", "Chilanzar, Qatortol")
    ],
    Bags)

  const Bags: map<string, Bag> := map[
    "1" := Bag("bag_1", "1", 60000, 20000, 5, ["Pastry", "Sweet"]),
    "2" := Bag("bag_2", "2", 45000, 15000, 2, ["Plov", "Salad"]),
    "3" := Bag("bag_3", "3", 80000, 25000, 10, ["Bread", "Dairy", "Produce"]),
    "4" := Bag("bag_4", "4", 55000, 18000, 3, ["Sandwich", "Croissant"]),
    "5" := Bag("bag_5", "5", 40000, 15000, 8, ["Lavash", "Fries"])
  ]

  const TejabQol: Catalog := Catalog(
    [ Store("1", "Safia Bakery", "Famous local bakery chain with fresh pastries and cakes.", Bakery,
            "https://picsum.photos/400/300?random=1", "20:00", "22:00", "Amir Temur Ave, 15"),
      Store("2", "Osh Markazi (Plov Center)", "Traditional Uzbek Plov and salads.", Restaurant,
            "https://picsum.photos/400/300?random=2", "14:00", "15:00", "Shakhriston St, 5"),
      Store("3", "Korzinka Supermarket", "Daily fresh produce and bakery items.", Grocery,
            "https://picsum.photos/400/300?random=3", "22:00", "23:30", "Sebzar St, 8"),
      Store("4", "Bon!", "French style cafe with sandwiches and coffee.", Cafe,
            "https://picsum.photos/400/300?random=4", "19:00", "20:30", "Oybek St, 24"),
      Store("5", "Evos", "Popular fast food chain, lavash and burgers.", FastFood,
            "https://picsum.photos/400/300?random=5", "23:00", "00:00", "Chilanzar, Qatortol")
    ],
    map[
      "1" := Bag("bag_1", "1", 60000, 20000, 5, ["Pastry", "Sweet"]),
      "2" := Bag("bag_2", "2", 45000, 15000, 2, ["Plov", "Salad"]),
      "3" := Bag("bag_3", "3", 80000, 25000, 10, ["Bread", "Dairy", "Produce"]),
      "4" := Bag("bag_4", "4", 55000, 18000, 3, ["Sandwich", "Croissant"]),
      "5" := Bag("bag_5", "5", 40000, 15000, 8, ["Lavash", "Fries"])
    ])

  /** The merchant catalog: ids "1" to "5", and every invariant above. */
  lemma SrcWellFormed()
    ensures Ids(Src.stores) == ["1", "2", "3", "4", "5"]
    ensures WellFormed(Src)
  {
    CatalogFacts(Src);
  }

  /** The consumer prototype's catalog satisfies the same invariants. */
  lemma TejabQolWellFormed()
    ensures Ids(TejabQol.stores) == ["1", "2", "3", "4", "5"]
    ensures WellFormed(TejabQol)
  {
    CatalogFacts(TejabQol);
  }

  /** Sufficient conditions for `WellFormed` that are checked by evaluation
      on a five-store catalog with ids "1" to "5". */
  lemma CatalogFacts(c: Catalog)
    requires |c.stores| == 5
    requires Ids(c.stores) == ["1", "2", "3", "4", "5"]
    requires c.bags.Keys == {"1", "2", "3", "4", "5"}
    requires forall k :: k in c.bags ==> BagFits(k, c.bags[k])
    ensures WellFormed(c)
  {
    var ids := Ids(c.stores);
    forall k | k in c.bags
      ensures exists i :: 0 <= i < |c.stores| && c.stores[i].id == k
    {
      if k == "1" { assert c.stores[0].id == ids[0]; }
      else if k == "2" { assert c.stores[1].id == ids[1]; }
      else if k == "3" { assert c.stores[2].id == ids[2]; }
      else if k == "4" { assert c.stores[3].id == ids[3]; }
      else { assert c.stores[4].id == ids[4]; }
    }
  }

  /** The two catalogs differ only in their image URLs: same stores in the
      same order, and identical bags, prices and quantities. */
  lemma CatalogsAgreeExceptImages()
    ensures |Src.stores| == |TejabQol.stores|
    ensures forall i :: 0 <= i < |Src.stores| ==>
      Src.stores[i].(image := "") == TejabQol.stores[i].(image := "")
    ensures forall i :: 0 <= i < |Src.stores| ==> Src.stores[i].image != TejabQol.stores[i].image
    ensures Src.bags == TejabQol.bags
  {
  }
}

=== FILE: checkout.dfy ===
/** What both prototypes do when the simulated payment completes: draw an
    order id, a timestamp and a pickup code, and build a RESERVED order for
    the selected store's bag. */
module Checkout {
  import opened Types
  import opened Text

  datatype PaymentMethod = Click | Payme

  /** The values the completion callback takes from its environment:
      the order id from `Math.random().toString(36)`, `Date.now()`, and the
      `Math.random()` sample behind the pickup code. */
  datatype Draw = Draw(orderId: string, now: int, codeSample: real)

  predicate ValidDraw(d: Draw) {
    0.0 <= d.codeSample < 1.0
  }

  /** `Math.floor(1000 + sample * 9000)` for a sample in [0, 1). */
  function PickupNumber(sample: real): (n: int)
    requires 0.0 <= sample < 1.0
    ensures 1000 <= n <= 9999
  {
    (1000.0 + sample * 9000.0).Floor
  }

  /** A pickup code: four decimal digits, the first not zero. */
  ghost predicate IsPickupCode(code: string) {
    |code| == 4 && AllDigits(code) && code[0] != '0'
  }

  /** The pickup code's text is the decimal numeral of the drawn number,
      which makes it exactly four digits long. */
  function PickupCode(sample: real): (code: string)
    requires 0.0 <= sample < 1.0
    ensures IsPickupCode(code)
    ensures ParseDecimal(code) == PickupNumber(sample)
  {
    var n := PickupNumber(sample);
    FourDigitNumeral(n);
    ParseDecimalString(n);
    DecimalString(n)
  }

  /** The order the completion callback builds for `store` and its bag. */
  function NewOrder(store: Store, bag: Bag, d: Draw): (o: Order)
    requires ValidDraw(d)
    ensures RecordsPurchase(o, store, bag)
    ensures IsPickupCode(o.pickupCode) && ParseDecimal(o.pickupCode) == PickupNumber(d.codeSample)
    ensures o.id == d.orderId && o.timestamp == d.now
  {
    Order(d.orderId, store.id, bag.id, Reserved, d.now, PickupCode(d.codeSample), bag.discountPrice)
  }

  /** The order records the purchase of `bag` at `store`: reserved, at the
      bag's discounted price, with a four-digit pickup code. */
  predicate RecordsPurchase(o: Order, store: Store, bag: Bag) {
    && o.storeId == store.id
    && o.bagId == bag.id
    && o.status == Reserved
    && o.totalPaid == bag.discountPrice
  }
}

=== FILE: offer_form.dfy ===
/** The merchant's "Add Surplus Offer" form: its state, field edits and the
    submit guard that turns the state into an offer payload. */
module OfferForm {
  import opened Types
  import opened Text
  import Storage
  import Utils

  /** A form value: the inputs report text, but the initial quantity is the
      number 1. */
  datatype Value = Str(text: string) | Num(n: int)

  /** The `name` attributes of the form's inputs. */
  datatype Field = Title | Place | Category | Price | OriginalValue | PickupFrom | PickupTo | Quantity

  datatype Form = Form(
    title: string,
    place: string,
    category: string,
    price: string,
    originalValue: string,
    pickupFrom: string,
    pickupTo: string,
    quantity: Value)

  function Get(f: Form, field: Field): Value {
    match field
    case Title => Str(f.title)
    case Place => Str(f.place)
    case Category => Str(f.category)
    case Price => Str(f.price)
    case OriginalValue => Str(f.originalValue)
    case PickupFrom => Str(f.pickupFrom)
    case PickupTo => Str(f.pickupTo)
    case Quantity => f.quantity
  }

  /** The state the form opens with. */
  const Initial := Form("", "", "Bakery", "", "", "18:00", "19:00", Num(1))

  /** `handleChange`: the named field takes the input's text; every other
      field keeps its value. */
  function HandleChange(f: Form, field: Field, value: string): (g: Form)
    ensures forall other :: Get(g, other) == (if other == field then Str(value) else Get(f, other))
  {
    match field
    case Title => f.(title := value)
    case Place => f.(place := value)
    case Category => f.(category := value)
    case Price => f.(price := value)
    case OriginalValue => f.(originalValue := value)
    case PickupFrom => f.(pickupFrom := value)
    case PickupTo => f.(pickupTo := value)
    case Quantity => f.(quantity := Str(value))
  }

  /** `Number(value)` of a form value. */
  function NumberOf(v: Value): JsNumber {
    match v
    case Str(s) => ToNumber(s)
    case Num(n) => Int(n)
  }

  /** `handleSubmit`: `None` when the title or the place is empty (the
      handler returns without calling `onSubmit`); otherwise the payload
      passed to `onSubmit` once. */
  function HandleSubmit(f: Form): (r: Option<Storage.Offer>)
    ensures r.None? <==> f.title == "" || f.place == ""
    ensures r.Some? ==>
      var o := r.value;
      && o.id.None? && o.createdAt.None?
      && o.title == f.title && o.place == f.place && o.category == f.category
      && o.pickupFrom == f.pickupFrom && o.pickupTo == f.pickupTo
      && o.price == NumberOf(Get(f, Price))
      && o.originalValue == NumberOf(Get(f, OriginalValue))
      && o.quantity == NumberOf(Get(f, Quantity))
  {
    if f.title == "" || f.place == "" then None
    else Some(Storage.Offer(
      None, None, f.title, f.place, f.category,
      ToNumber(f.price), ToNumber(f.originalValue), NumberOf(f.quantity),
      f.pickupFrom, f.pickupTo))
  }

  /** The form as it opens cannot be submitted; once a title and a place
      are typed in, it submits one item at the default category and pickup
      window, with the value left blank counted as 0. */
  lemma InitialFormSubmission(title: string, place: string, price: nat)
    requires title != "" && place != ""
    ensures HandleSubmit(Initial).None?
    ensures
      var f := HandleChange(HandleChange(HandleChange(Initial, Title, title), Place, place),
                            Price, DecimalString(price));
      HandleSubmit(f) == Some(Storage.Offer(None, None, title, place, "Bakery",
                                            Int(price), Int(0), Int(1), "18:00", "19:00"))
  {
    NumberOfDecimalString(price);
  }

  /** The merchant flow on fresh storage: no offers are stored, a submitted
      "X" at 10000 sum worth 20000 becomes the only offer, stamped with the
      fresh id and time, and its card shows a 50% discount. */
  lemma AddOfferScenario(freshId: string, now: int)
    ensures Storage.GetOffers(Storage.Empty) == []
    ensures
      var f := HandleChange(HandleChange(HandleChange(HandleChange(Initial,
                 Title, "X"), Place, "Y"), Price, "10000"), OriginalValue, "20000");
      var o := HandleSubmit(f);
      && o.Some?
      && var u := Storage.AddOffer(Storage.Empty, o.value, freshId, now);
      && |u.list| == 1
      && u.list[0].title == "X" && u.list[0].category == "Bakery"
      && u.list[0].id == Some(freshId) && u.list[0].createdAt == Some(now)
      && u.list[0].price == Int(10000) && u.list[0].originalValue == Int(20000)
      && Utils.CalculateDiscount(u.list[0].price.value, u.list[0].originalValue.value) == 50
  {
    NumberOfDecimalString(10000);
    NumberOfDecimalString(20000);
    assert DecimalString(10000) == "10000";
    assert DecimalString(20000) == "20000";
    Utils.HalfPriceIsFifty(10000);
  }
}

=== FILE: seqs.dfy ===
/** Order-preserving filtering over sequences: the one list primitive
    (`Array.prototype.filter`) that the storage gateway, the store search and
    the orders screen all use. */
module Seqs {

  /** `xs` is obtained from `ys` by deleting zero or more elements,
      keeping the relative order of the rest. */
  ghost predicate IsSubsequence<T>(xs: seq<T>, ys: seq<T>)
    decreases |ys|
  {
    || xs == []
    || (&& ys != []
        && (|| (xs[0] == ys[0] && IsSubsequence(xs[1..], ys[1..]))
            || IsSubsequence(xs, ys[1..])))
  }

  /** The elements of `xs` that satisfy `keep`, in their original order. */
  function Filter<T>(keep: T -> bool, xs: seq<T>): (r: seq<T>)
    ensures |r| <= |xs|
    ensures forall i :: 0 <= i < |r| ==> r[i] in xs && keep(r[i])
    ensures forall i :: 0 <= i < |xs| && keep(xs[i]) ==> xs[i] in r
    ensures IsSubsequence(r, xs)
  {
    if xs == [] then []
    else if keep(xs[0]) then [xs[0]] + Filter(keep, xs[1..])
    else Filter(keep, xs[1..])
  }

  /** Filtering keeps every copy of a kept element and no copy of the
      others. */
  lemma {:induction false} FilterCounts<T>(keep: T -> bool, xs: seq<T>)
    ensures forall x | x in xs ::
      multiset(Filter(keep, xs))[x] == if keep(x) then multiset(xs)[x] else 0
  {
    if xs != [] {
      FilterCounts(keep, xs[1..]);
      assert xs == [xs[0]] + xs[1..];
    }
  }

  /** A subsequence of a subsequence of `zs` is a subsequence of `zs`. */
  lemma {:induction false} SubsequenceTransitive<T>(xs: seq<T>, ys: seq<T>, zs: seq<T>)
    requires IsSubsequence(xs, ys) && IsSubsequence(ys, zs)
    ensures IsSubsequence(xs, zs)
    decreases |zs|
  {
    if xs != [] {
      assert ys != [] && zs != [];
      if ys[0] == zs[0] && IsSubsequence(ys[1..], zs[1..]) {
        if xs[0] == ys[0] && IsSubsequence(xs[1..], ys[1..]) {
          SubsequenceTransitive(xs[1..], ys[1..], zs[1..]);
        } else {
          SubsequenceTransitive(xs, ys[1..], zs[1..]);
        }
      } else {
        SubsequenceTransitive(xs, ys, zs[1..]);
      }
    }
  }

  /** Filtering returns its input exactly when every element is kept. */
  lemma {:induction false} FilterIsIdentityIff<T>(keep: T -> bool, xs: seq<T>)
    ensures Filter(keep, xs) == xs <==> forall i :: 0 <= i < |xs| ==> keep(xs[i])
  {
    if forall i :: 0 <= i < |xs| ==> keep(xs[i]) {
      FilterKeepsAll(keep, xs);
    } else {
      var i :| 0 <= i < |xs| && !keep(xs[i]);
      var r := Filter(keep, xs);
      if |r| == |xs| {
        assert keep(r[i]) && !keep(xs[i]);  // so r and xs differ at i
      }
    }
  }

  lemma {:induction false} FilterKeepsAll<T>(keep: T -> bool, xs: seq<T>)
    requires forall i :: 0 <= i < |xs| ==> keep(xs[i])
    ensures Filter(keep, xs) == xs
  {
    if xs != [] {
      assert keep(xs[0]);
      FilterKeepsAll(keep, xs[1..]);
    }
  }

  /** Filtering twice with the same predicate is filtering once. */
  lemma FilterIdempotent<T>(keep: T -> bool, xs: seq<T>)
    ensures Filter(keep, Filter(keep, xs)) == Filter(keep, xs)
  {
    var r := Filter(keep, xs);
    forall i | 0 <= i < |r|
      ensures keep(r[i])
    {
      assert r[i] in r;
    }
    FilterKeepsAll(keep, r);
  }
}

=== FILE: storage.dfy ===
/** The persistence gateway: two independent collections kept in the
    browser's key-value storage, offers under "food_rescue_offers" and
    orders under "food_rescue_orders". Serialisation is the identity, so a
    stored value is the list itself; an absent key is `None`. */
module Storage {
  import opened Types
  import opened Text
  import Seqs

  /** A merchant offer. `id` and `createdAt` are absent on a record that
      has not been through `AddOffer` (the form's payload has neither). */
  datatype Offer = Offer(
    id: Option<string>,
    createdAt: Option<int>,
    title: string,
    place: string,
    category: string,
    price: JsNumber,
    originalValue: JsNumber,
    quantity: JsNumber,
    pickupFrom: string,
    pickupTo: string)

  /** One slot per storage key. */
  datatype LocalStorage = LocalStorage(offers: Option<seq<Offer>>, orders: Option<seq<Order>>)

  /** A write through the gateway: the storage afterwards and the list the
      operation hands back to its caller. */
  datatype Update<T> = Update(storage: LocalStorage, list: seq<T>)

  const Empty := LocalStorage(None, None)

  /** The offers returned while nothing is stored; it is not written back. */
  const SeedOffers: seq<Offer> := []

  function GetOffers(st: LocalStorage): seq<Offer> {
    match st.offers
    case None => SeedOffers
    case Some(offers) => offers
  }

  function GetOrders(st: LocalStorage): seq<Order> {
    match st.orders
    case None => []
    case Some(orders) => orders
  }

  /** `saveOffers`: a later read returns exactly what was saved, and the
      orders key is not touched. */
  function SaveOffers(st: LocalStorage, offers: seq<Offer>): (st': LocalStorage)
    ensures GetOffers(st') == offers
    ensures st'.orders == st.orders
  {
    st.(offers := Some(offers))
  }

  /** `addOffer`: stamps the offer with a fresh id and the current time
      (both supplied by the caller), puts it in front of the stored offers
      and saves the result. */
  function AddOffer(st: LocalStorage, offer: Offer, freshId: string, now: int): (u: Update<Offer>)
    ensures |u.list| == |GetOffers(st)| + 1
    ensures u.list[0] == offer.(id := Some(freshId), createdAt := Some(now))
    ensures u.list[1..] == GetOffers(st)
    ensures GetOffers(u.storage) == u.list
    ensures u.storage.orders == st.orders
  {
    var updated := [offer.(id := Some(freshId), createdAt := Some(now))] + GetOffers(st);
    Update(SaveOffers(st, updated), updated)
  }

  /** `deleteOffer`: keeps the stored offers whose id differs from `id`
      (`o.id !== id`, so an absent id only matches records without one). */
  function DeleteOffer(st: LocalStorage, id: Option<string>): (u: Update<Offer>)
    ensures forall i :: 0 <= i < |u.list| ==> u.list[i].id != id && u.list[i] in GetOffers(st)
    ensures forall o :: o in GetOffers(st) && o.id != id ==> o in u.list
    ensures Seqs.IsSubsequence(u.list, GetOffers(st))
    ensures forall o | o in GetOffers(st) ::
      multiset(u.list)[o] == if o.id != id then multiset(GetOffers(st))[o] else 0
    ensures GetOffers(u.storage) == u.list
    ensures u.storage.orders == st.orders
  {
    var updated := Seqs.Filter((o: Offer) => o.id != id, GetOffers(st));
    Seqs.FilterCounts((o: Offer) => o.id != id, GetOffers(st));
    Update(SaveOffers(st, updated), updated)
  }

  /** Deleting an id no stored offer has leaves the offers as they were. */
  lemma DeleteAbsentIsNoOp(st: LocalStorage, id: Option<string>)
    requires forall i :: 0 <= i < |GetOffers(st)| ==> GetOffers(st)[i].id != id
    ensures DeleteOffer(st, id).list == GetOffers(st)
    ensures GetOffers(DeleteOffer(st, id).storage) == GetOffers(st)
  {
    Seqs.FilterIsIdentityIff((o: Offer) => o.id != id, GetOffers(st));
  }

  /** Deleting twice is deleting once. */
  lemma DeleteTwice(st: LocalStorage, id: Option<string>)
    ensures DeleteOffer(DeleteOffer(st, id).storage, id) == DeleteOffer(st, id)
  {
    Seqs.FilterIdempotent((o: Offer) => o.id != id, GetOffers(st));
  }

  /** Deleting the offer just added, under an id no stored offer had,
      undoes the addition. */
  lemma {:induction false} DeleteUndoesAdd(st: LocalStorage, offer: Offer, freshId: string, now: int)
    requires forall i :: 0 <= i < |GetOffers(st)| ==> GetOffers(st)[i].id != Some(freshId)
    ensures GetOffers(DeleteOffer(AddOffer(st, offer, freshId, now).storage, Some(freshId)).storage)
         == GetOffers(st)
  {
    var added := AddOffer(st, offer, freshId, now).list;
    var keep := (o: Offer) => o.id != Some(freshId);
    assert !keep(added[0]) && added[1..] == GetOffers(st);
    assert Seqs.Filter(keep, added) == Seqs.Filter(keep, GetOffers(st));
    Seqs.FilterKeepsAll(keep, GetOffers(st));
  }

  /** `saveOrder`: puts the order in front of the stored orders and saves
      the result; the offers key is not touched. */
  function SaveOrder(st: LocalStorage, order: Order): (u: Update<Order>)
    ensures u.list == [order] + GetOrders(st)
    ensures GetOrders(u.storage) == u.list
    ensures u.storage.offers == st.offers
  {
    var updated := [order] + GetOrders(st);
    Update(st.(orders := Some(updated)), updated)
  }

  /** `resetDemo`: removes both keys and returns an empty list. */
  function ResetDemo(st: LocalStorage): (u: Update<Order>)
    ensures GetOffers(u.storage) == [] && GetOrders(u.storage) == []
    ensures u.list == []
  {
    Update(Empty, [])
  }

  /** Reading storage that holds nothing yields the (empty) seed and no
      orders; resetting returns the storage to that state. */
  lemma EmptyStorageReads(st: LocalStorage)
    ensures GetOffers(Empty) == [] && GetOrders(Empty) == []
    ensures ResetDemo(st).storage == Empty
  {
  }
}

=== FILE: store_filter.dfy ===
/** The home screen's store search and category chips, and the orders
    screen's newest-first ordering. */
module StoreFilter {
  import opened Types
  import opened Text
  import Seqs

  /** The category chip state: "All" or one category. */
  datatype CategoryFilter = All | Only(category: StoreCategory)

  predicate MatchesCategory(f: CategoryFilter, s: Store) {
    f.All? || s.category == f.category
  }

  predicate MatchesSearch(s: Store, term: string) {
    || Includes(ToLower(s.name), ToLower(term))
    || Includes(ToLower(CategoryName(s.category)), ToLower(term))
  }

  /** `text` contains `term`, ignoring (ASCII) case: the reference meaning
      of the search box. */
  ghost predicate ContainsIgnoringCase(text: string, term: string) {
    exists i :: OccursAt(ToLower(text), ToLower(term), i)
  }

  /** `filteredStores` in `renderHome`: the stores in the chosen category
      whose name or category contains the search term, in catalog order. */
  function FilterStores(stores: seq<Store>, f: CategoryFilter, term: string): (r: seq<Store>)
    ensures Seqs.IsSubsequence(r, stores)
    ensures forall s :: s in r <==>
      && s in stores
      && MatchesCategory(f, s)
      && (ContainsIgnoringCase(s.name, term) || ContainsIgnoringCase(CategoryName(s.category), term))
  {
    Seqs.Filter((s: Store) => MatchesCategory(f, s) && MatchesSearch(s, term), stores)
  }

  /** With no search term and the "All" chip, every store is listed. */
  lemma NoFilterListsEverything(stores: seq<Store>)
    ensures FilterStores(stores, All, "") == stores
  {
    forall i | 0 <= i < |stores|
      ensures MatchesSearch(stores[i], "")
    {
      IncludesEmpty(ToLower(stores[i].name));
    }
    Seqs.FilterIsIdentityIff((s: Store) => MatchesCategory(All, s) && MatchesSearch(s, ""), stores);
  }

  /** The chips of one category narrow the "All" listing for the same term. */
  lemma {:induction false} CategoryNarrowsAll(stores: seq<Store>, c: StoreCategory, term: string)
    ensures Seqs.IsSubsequence(FilterStores(stores, Only(c), term), FilterStores(stores, All, term))
  {
    if stores != [] {
      CategoryNarrowsAll(stores[1..], c, term);
      var rest := FilterStores(stores[1..], Only(c), term);
      var all := FilterStores(stores[1..], All, term);
      if MatchesSearch(stores[0], term) {
        assert FilterStores(stores, All, term) == [stores[0]] + all;
        if stores[0].category == c {
          assert FilterStores(stores, Only(c), term) == [stores[0]] + rest;
        } else {
          assert FilterStores(stores, Only(c), term) == rest;
        }
      } else {
        assert FilterStores(stores, All, term) == all;
        assert FilterStores(stores, Only(c), term) == rest;
      }
    }
  }

  /** A category chip click: clicking the chip that is on turns the filter
      back to "All"; clicking any other chip selects its category. */
  function ToggleCategory(current: CategoryFilter, clicked: StoreCategory): (r: CategoryFilter)
    ensures r == Only(clicked) <==> current != Only(clicked)
    ensures r != Only(clicked) ==> r == All
  {
    if current == Only(clicked) then All else Only(clicked)
  }

  /** Clicking a chip twice from "All" or from that chip returns there. */
  lemma ToggleTwice(current: CategoryFilter, clicked: StoreCategory)
    requires current == All || current == Only(clicked)
    ensures ToggleCategory(ToggleCategory(current, clicked), clicked) == current
  {
  }

  /** Orders listed newest first: timestamps never increase. */
  ghost predicate NewestFirst(orders: seq<Order>) {
    forall i, j :: 0 <= i < j < |orders| ==> orders[i].timestamp >= orders[j].timestamp
  }

  /** No order in `orders` is newer than `t`. */
  ghost predicate NoneNewerThan(orders: seq<Order>, t: int) {
    forall i :: 0 <= i < |orders| ==> orders[i].timestamp <= t
  }

  lemma ConsNewestFirst(head: Order, rest: seq<Order>)
    requires NewestFirst(rest) && NoneNewerThan(rest, head.timestamp)
    ensures NewestFirst([head] + rest)
  {
    var r := [head] + rest;
    forall i, j | 0 <= i < j < |r|
      ensures r[i].timestamp >= r[j].timestamp
    {
      if i > 0 {
        assert r[i] == rest[i - 1] && r[j] == rest[j - 1];
      } else {
        assert r[j] == rest[j - 1];
      }
    }
  }

  /** Places `o` before the first order not newer than it. */
  function Insert(o: Order, sorted: seq<Order>): (r: seq<Order>)
    requires NewestFirst(sorted)
    ensures NewestFirst(r)
    ensures multiset(r) == multiset(sorted) + multiset{o}
    ensures forall t :: NoneNewerThan(sorted, t) && o.timestamp <= t ==> NoneNewerThan(r, t)
  {
    if sorted == [] || o.timestamp >= sorted[0].timestamp then
      ConsNewestFirst(o, sorted);
      [o] + sorted
    else
      var head, rest := sorted[0], Insert(o, sorted[1..]);
      assert sorted == [head] + sorted[1..];
      ConsNewestFirst(head, rest);
      [head] + rest
  }

  /** `[...orders].sort((a, b) => b.timestamp - a.timestamp)`: a copy of the
      orders, newest first. */
  function SortNewestFirst(orders: seq<Order>): (r: seq<Order>)
    ensures NewestFirst(r)
    ensures multiset(r) == multiset(orders)
  {
    if orders == [] then []
    else
      assert orders == [orders[0]] + orders[1..];
      Insert(orders[0], SortNewestFirst(orders[1..]))
  }

  /** Leaving orders out of a newest-first list keeps it newest first. */
  lemma {:induction false} FilterKeepsNewestFirst(keep: Order -> bool, orders: seq<Order>)
    requires NewestFirst(orders)
    ensures NewestFirst(Seqs.Filter(keep, orders))
  {
    if orders != [] {
      var rest := Seqs.Filter(keep, orders[1..]);
      FilterKeepsNewestFirst(keep, orders[1..]);
      if keep(orders[0]) {
        forall i | 0 <= i < |rest|
          ensures rest[i].timestamp <= orders[0].timestamp
        {
          var j :| 0 <= j < |orders[1..]| && orders[1..][j] == rest[i];
          assert orders[j + 1] == rest[i];
        }
        ConsNewestFirst(orders[0], rest);
      }
    }
  }

  /** Orders already newest first are shown exactly as stored. */
  lemma {:induction false} SortKeepsSortedOrders(orders: seq<Order>)
    requires NewestFirst(orders)
    ensures SortNewestFirst(orders) == orders
  {
    if orders != [] {
      SortKeepsSortedOrders(orders[1..]);
    }
  }
}

=== FILE: tejab_app.dfy ===
/** The consumer prototype of `tejab-qol---food-rescue-uzbekistan/App.tsx`.
    Same screens and handlers as the persistent app, but orders live only
    in component state, and the payment callback prepends the new order to
    the orders list as it was when payment was confirmed. */
module TejabQolApp {
  import opened Types
  import opened Text
  import opened Catalog
  import opened Checkout
  import Seqs

  datatype AppState = AppState(view: View, selected: Option<Store>, orders: seq<Order>, loading: bool)

  /** A scheduled payment completion: the callback closes over the
      selected store and over `orders` as they were at confirmation. */
  datatype Pending = Pending(store: Store, orders: seq<Order>)

  /** The first render: HOME, nothing selected, no orders, not loading. */
  const Initial := AppState(Home, None, [], false)

  /** The app starts with only RESERVED orders (none), which
      `ActiveOrdersAreAllOrders` then carries through every completion; the
      orders screen starts empty. */
  lemma InitialOrdersAllReserved()
    ensures AllReserved(Initial.orders)
    ensures ActiveOrders(Initial.orders) == Initial.orders
    ensures ShownOrders(Initial.orders) == []
  {
  }

  /** `handleStoreClick`: unknown ids are ignored; a known id opens the
      store's detail screen. */
  function HandleStoreClick(a: AppState, id: string): (a': AppState)
    ensures (forall i :: 0 <= i < |TejabQol.stores| ==> TejabQol.stores[i].id != id) ==> a' == a
    ensures (exists i :: 0 <= i < |TejabQol.stores| && TejabQol.stores[i].id == id) ==>
      && a'.selected.Some? && a'.selected.value in TejabQol.stores && a'.selected.value.id == id
      && a' == a.(view := StoreDetail, selected := a'.selected)
  {
    match FindStore(TejabQol.stores, id)
    case None => a
    case Some(store) => a.(selected := Some(store), view := StoreDetail)
  }

  /** `handleReserve`: the checkout screen, whatever the bag's quantity. */
  function HandleReserve(a: AppState): (a': AppState)
    ensures a'.view == Checkout
    ensures a'.(view := a.view) == a
  {
    a.(view := Checkout)
  }

  /** `confirmPayment`: a no-op without a selected store; otherwise the
      spinner shows and the completion is scheduled with what it captured. */
  function ConfirmPayment(a: AppState, provider: PaymentMethod): (r: (AppState, Option<Pending>))
    ensures a.selected.None? ==> r == (a, None)
    ensures a.selected.Some? ==> r == (a.(loading := true), Some(Pending(a.selected.value, a.orders)))
  {
    match a.selected
    case None => (a, None)
    case Some(store) => (a.(loading := true), Some(Pending(store, a.orders)))
  }

  /** The `setTimeout` callback: `setOrders([newOrder, ...orders])` with the
      captured orders, nothing persisted, then the orders screen. A store
      without a bag would make `bag.id` throw, changing nothing. */
  function CompletePayment(a: AppState, p: Pending, d: Draw): (a': AppState)
    requires ValidDraw(d)
    ensures p.store.id !in TejabQol.bags ==> a' == a
    ensures p.store.id in TejabQol.bags ==>
      && |a'.orders| == |p.orders| + 1
      && RecordsPurchase(a'.orders[0], p.store, TejabQol.bags[p.store.id])
      && IsPickupCode(a'.orders[0].pickupCode)
      && a'.orders[1..] == p.orders
      && a' == a.(orders := a'.orders, loading := false, view := Orders)
  {
    if p.store.id !in TejabQol.bags then a
    else
      var order := NewOrder(p.store, TejabQol.bags[p.store.id], d);
      a.(orders := [order] + p.orders, loading := false, view := Orders)
  }

  /** Confirming and then completing a payment for a store of the catalog
      puts one reserved order for that store's bag in front of the orders
      that were there. */
  lemma {:induction false} PayThenComplete(a: AppState, provider: PaymentMethod, d: Draw)
    requires ValidDraw(d)
    requires a.selected.Some? && a.selected.value in TejabQol.stores
    ensures
      var (a1, p) := ConfirmPayment(a, provider);
      var a2 := CompletePayment(a1, p.value, d);
      && a2.orders[1..] == a.orders
      && RecordsPurchase(a2.orders[0], a.selected.value, TejabQol.bags[a.selected.value.id])
      && a2.view == Orders && !a2.loading && a2.selected == a.selected
  {
    TejabQolWellFormed();
    var i :| 0 <= i < |TejabQol.stores| && TejabQol.stores[i] == a.selected.value;
    assert a.selected.value.id in TejabQol.bags;
  }

  /** `activeOrders` on the orders screen: the reserved orders, in order. */
  function ActiveOrders(orders: seq<Order>): (r: seq<Order>)
    ensures Seqs.IsSubsequence(r, orders)
    ensures forall o :: o in r <==> o in orders && o.status == Reserved
    ensures forall o | o in orders :: multiset(r)[o] == if o.status == Reserved then multiset(orders)[o] else 0
  {
    Seqs.FilterCounts((o: Order) => o.status == Reserved, orders);
    Seqs.Filter((o: Order) => o.status == Reserved, orders)
  }

  /** An order the orders screen draws a card for: its store is found in
      the catalog; any other order is skipped. */
  predicate HasCatalogStore(o: Order) {
    FindStore(TejabQol.stores, o.storeId).Some?
  }

  /** The cards of the orders screen: the active orders, without those
      whose store the catalog does not know, in their existing order. */
  function ShownOrders(orders: seq<Order>): (r: seq<Order>)
    ensures Seqs.IsSubsequence(r, orders)
    ensures forall o :: o in r <==> o in orders && o.status == Reserved && HasCatalogStore(o)
    ensures forall o | o in orders ::
      multiset(r)[o] == if o.status == Reserved && HasCatalogStore(o) then multiset(orders)[o] else 0
  {
    var active := ActiveOrders(orders);
    var r := Seqs.Filter(HasCatalogStore, active);
    Seqs.FilterCounts(HasCatalogStore, active);
    Seqs.SubsequenceTransitive(r, active, orders);
    r
  }

  /** After a payment for a catalog store, the new order is the first card
      of the orders screen, above the cards shown before. */
  lemma {:induction false} NewOrderShownFirst(a: AppState, p: Pending, d: Draw)
    requires ValidDraw(d) && p.store in TejabQol.stores
    ensures p.store.id in TejabQol.bags
    ensures
      var orders := CompletePayment(a, p, d).orders;
      ShownOrders(orders) == [orders[0]] + ShownOrders(p.orders)
  {
    TejabQolWellFormed();
    var i :| 0 <= i < |TejabQol.stores| && TejabQol.stores[i] == p.store;
    assert p.store.id in TejabQol.bags;
    var orders := CompletePayment(a, p, d).orders;
    assert orders == [orders[0]] + p.orders;
    assert orders[0].status == Reserved && orders[0].storeId == p.store.id;
    assert HasCatalogStore(orders[0]);
  }

  ghost predicate AllReserved(orders: seq<Order>) {
    forall i :: 0 <= i < |orders| ==> orders[i].status == Reserved
  }

  /** Only reserved orders are ever created, so the orders screen lists
      every order. */
  lemma {:induction false} ActiveOrdersAreAllOrders(a: AppState, p: Pending, d: Draw)
    requires ValidDraw(d) && AllReserved(a.orders) && AllReserved(p.orders)
    ensures AllReserved(CompletePayment(a, p, d).orders)
    ensures ActiveOrders(CompletePayment(a, p, d).orders) == CompletePayment(a, p, d).orders
  {
    var orders := CompletePayment(a, p, d).orders;
    if p.store.id in TejabQol.bags {
      assert orders == [orders[0]] + p.orders;
    }
    Seqs.FilterIsIdentityIff((o: Order) => o.status == Reserved, orders);
  }

  /** The badge on a store card: "Sold out" unless the store has a bag
      with stock, else "<quantity> left". */
  function StockBadge(bags: map<string, Bag>, storeId: string): (text: string)
    ensures text == "Sold out" <==> storeId !in bags || bags[storeId].quantity <= 0
  {
    if storeId in bags && bags[storeId].quantity > 0 then
      var t := DecimalString(bags[storeId].quantity) + " left";
      // "<digits> left" has a space where "Sold out" has its 'd'
      assert t[|t| - 5] == ' ' && "Sold out"[3] == 'd';
      t
    else "Sold out"
  }

  /** No store of the catalog is shown sold out. */
  lemma NoCatalogStoreSoldOut(i: int)
    requires 0 <= i < |TejabQol.stores|
    ensures StockBadge(TejabQol.bags, TejabQol.stores[i].id) != "Sold out"
  {
    TejabQolWellFormed();
    assert TejabQol.stores[i].id in TejabQol.bags;
  }
}

=== FILE: text.dfy ===
/** The JavaScript string and number primitives the core leans on:
    `toLowerCase` (ASCII letters only), `includes`, the decimal
    `toString()` of a non-negative integer, and `Number(text)`. */
module Text {

  predicate IsUpperAscii(c: char) {
    'A' <= c <= 'Z'
  }

  predicate IsDigit(c: char) {
    '0' <= c <= '9'
  }

  predicate AllDigits(s: string) {
    forall i :: 0 <= i < |s| ==> IsDigit(s[i])
  }

  function LowerChar(c: char): char {
    if IsUpperAscii(c) then (c as int + 32) as char else c
  }

  /** `s.toLowerCase()`, restricted to ASCII case folding. */
  function ToLower(s: string): (r: string)
    ensures |r| == |s|
    ensures forall i :: 0 <= i < |s| ==> r[i] == LowerChar(s[i])
  {
    seq(|s|, i requires 0 <= i < |s| => LowerChar(s[i]))
  }

  /** Lower-casing leaves no upper-case letter behind and is idempotent. */
  lemma ToLowerIsLower(s: string)
    ensures forall i :: 0 <= i < |s| ==> !IsUpperAscii(ToLower(s)[i])
    ensures ToLower(ToLower(s)) == ToLower(s)
  {
  }

  /** `needle` occurs in `hay` starting at position `i`. */
  ghost predicate OccursAt(hay: string, needle: string, i: int) {
    0 <= i && i + |needle| <= |hay| && hay[i..i + |needle|] == needle
  }

  /** `hay.includes(needle)`. */
  function Includes(hay: string, needle: string): (b: bool)
    ensures b <==> exists i :: OccursAt(hay, needle, i)
    decreases |hay|
  {
    if |needle| > |hay| then false
    else if hay[..|needle|] == needle then (assert OccursAt(hay, needle, 0); true)
    else
      var b := Includes(hay[1..], needle);
      assert forall i :: OccursAt(hay[1..], needle, i) <==> OccursAt(hay, needle, i + 1);
      assert !OccursAt(hay, needle, 0);
      assert forall i :: OccursAt(hay, needle, i) ==> i == 0 || OccursAt(hay[1..], needle, i - 1);
      b
  }

  /** Every string includes the empty string. */
  lemma IncludesEmpty(hay: string)
    ensures Includes(hay, "")
  {
    assert OccursAt(hay, "", 0);
  }

  function Digit(d: int): char
    requires 0 <= d < 10
  {
    ('0' as int + d) as char
  }

  function DigitValue(c: char): int
    requires IsDigit(c)
  {
    c as int - '0' as int
  }

  /** `n.toString()` for a non-negative integer: its decimal numeral,
      without leading zeros. */
  function DecimalString(n: nat): (s: string)
    ensures |s| >= 1
    ensures AllDigits(s)
    ensures n > 0 ==> s[0] != '0'
    ensures n == 0 ==> s == "0"
  {
    if n < 10 then [Digit(n)] else DecimalString(n / 10) + [Digit(n % 10)]
  }

  /** The value of a decimal numeral. */
  function ParseDecimal(s: string): nat
    requires AllDigits(s)
  {
    if s == [] then 0
    else ParseDecimal(s[..|s| - 1]) * 10 + DigitValue(s[|s| - 1])
  }

  /** Reading back the numeral of `n` gives `n`. */
  lemma {:induction false} ParseDecimalString(n: nat)
    ensures ParseDecimal(DecimalString(n)) == n
  {
    var s := DecimalString(n);
    if n >= 10 {
      ParseDecimalString(n / 10);
      assert s[..|s| - 1] == DecimalString(n / 10);
    }
  }

  /** Every integer from 1000 to 9999 is written with exactly four digits. */
  lemma {:induction false} FourDigitNumeral(n: nat)
    requires 1000 <= n <= 9999
    ensures |DecimalString(n)| == 4
  {
    var a, b, c := n / 10, n / 100, n / 1000;
    assert a / 10 == b && b / 10 == c && 1 <= c <= 9;
    assert |DecimalString(c)| == 1;
    assert |DecimalString(b)| == 2;
    assert |DecimalString(a)| == 3;
  }

  /** A JavaScript number as far as the model needs one: an integer, or
      something else (NaN, or a value with a fractional part or exponent),
      which the model does not compute with. */
  datatype JsNumber = Int(value: int) | NotModelled

  /** `Number(s)` on the text of a form input. The empty string is 0;
      an optionally negated run of decimal digits is that integer. */
  function ToNumber(s: string): (r: JsNumber)
    ensures s == "" ==> r == Int(0)
    ensures r.Int? && s != "" ==> AllDigits(s) || (|s| > 1 && s[0] == '-' && AllDigits(s[1..]))
    ensures s != "" && AllDigits(s) ==> r == Int(ParseDecimal(s))
    ensures |s| > 1 && s[0] == '-' && AllDigits(s[1..]) ==> r == Int(-(ParseDecimal(s[1..]) as int))
  {
    if s == "" then Int(0)
    else if AllDigits(s) then Int(ParseDecimal(s))
    else if s[0] == '-' && |s| > 1 && AllDigits(s[1..]) then Int(-(ParseDecimal(s[1..]) as int))
    else NotModelled
  }

  /** A leading zero does not change the value of a numeral. */
  lemma {:induction false} LeadingZeroIgnored(s: string)
    requires AllDigits(s)
    ensures AllDigits("0" + s) && ParseDecimal("0" + s) == ParseDecimal(s)
  {
    if s != [] {
      LeadingZeroIgnored(s[..|s| - 1]);
      assert ("0" + s)[..|s|] == "0" + s[..|s| - 1];
    }
  }

  /** `Number` ignores leading zeros: `Number("010") === 10`, and likewise
      after a minus sign. */
  lemma NumberIgnoresLeadingZero(s: string)
    requires s != "" && AllDigits(s)
    ensures ToNumber("0" + s) == ToNumber(s)
    ensures ToNumber("-0" + s) == ToNumber("-" + s)
  {
    LeadingZeroIgnored(s);
    assert ("-0" + s)[1..] == "0" + s;
    assert ("-" + s)[1..] == s;
  }

  /** `Number(String(n)) === n` for every non-negative integer. */
  lemma NumberOfDecimalString(n: nat)
    ensures ToNumber(DecimalString(n)) == Int(n)
  {
    ParseDecimalString(n);
  }
}

=== FILE: types.dfy ===
/** The records the two prototypes share: stores, surprise bags, orders and
    the screen the app is showing. Floating-point fields (rating,
    distance, coordinates) are not part of the model. */
module Types {

  datatype Option<+T> = None | Some(value: T)

  datatype StoreCategory = Restaurant | Bakery | Grocery | Cafe | FastFood

  /** The string value each category has in the source. */
  function CategoryName(c: StoreCategory): string {
    match c
    case Restaurant => "Restaurant"
    case Bakery => "Bakery"
    case Grocery => "Grocery"
    case Cafe => "Cafe"
    case FastFood => "Fast Food"
  }

  datatype Store = Store(
    id: string,
    name: string,
    description: string,
    category: StoreCategory,
    image: string,
    pickupStart: string,
    pickupEnd: string,
    address: string)

  /** A surprise bag; prices are whole Uzbek sum. */
  datatype Bag = Bag(
    id: string,
    storeId: string,
    originalPrice: int,
    discountPrice: int,
    quantity: int,
    tags: seq<string>)

  datatype OrderStatus = Reserved | Completed | Cancelled

  /** An order; `timestamp` is epoch milliseconds. */
  datatype Order = Order(
    id: string,
    storeId: string,
    bagId: string,
    status: OrderStatus,
    timestamp: int,
    pickupCode: string,
    totalPaid: int)

  /** The screen the app shows (`ViewState`). */
  datatype View = Home | Map | StoreDetail | Checkout | Orders | Profile

  /** The bottom navigation bar is drawn on the four main screens only,
      never during the store detail or checkout screens. */
  predicate ShowsBottomNav(v: View) {
    v == Home || v == Map || v == Orders || v == Profile
  }

  lemma BottomNavHiddenExactlyInPurchaseFlow(v: View)
    ensures !ShowsBottomNav(v) <==> v == StoreDetail || v == Checkout
  {
  }
}

=== FILE: utils.dfy ===
/** The discount badge arithmetic of `calculateDiscount`. */
module Utils {

  /** `Math.round(n / d)` for a positive divisor over exact rationals:
      the integer nearest to n/d, halves rounded up, i.e. floor(n/d + 1/2). */
  function RoundDiv(n: int, d: int): (r: int)
    requires d > 0
    ensures 2 * d * r <= 2 * n + d < 2 * d * r + 2 * d
  {
    var r := (2 * n + d) / (2 * d);
    assert 2 * n + d == (2 * d) * r + (2 * n + d) % (2 * d);
    r
  }

  /** Rounding is monotonic in the numerator. */
  lemma {:induction false} RoundDivMonotonic(n1: int, n2: int, d: int)
    requires d > 0 && n1 <= n2
    ensures RoundDiv(n1, d) <= RoundDiv(n2, d)
  {
    var r1, r2 := RoundDiv(n1, d), RoundDiv(n2, d);
    if r1 > r2 {
      // then 2d(r2 + 1) <= 2d r1 <= 2 n1 + d <= 2 n2 + d < 2d(r2 + 1)
      MulMonotonic(2 * d, r2 + 1, r1);
      assert false;
    }
  }

  lemma MulMonotonic(k: int, a: int, b: int)
    requires k > 0 && a <= b
    ensures k * a <= k * b
  {
  }

  /** `calculateDiscount(price, original)`: the percentage saved, rounded
      half up; 0 when `original` is 0 (falsy) or no lower than `price`. */
  function CalculateDiscount(price: int, original: int): (r: int)
    ensures original == 0 || original <= price ==> r == 0
    ensures 0 < original && price < original ==>
      2 * original * r <= 200 * (original - price) + original < 2 * original * r + 2 * original
  {
    if original == 0 || original <= price then 0
    else if original > 0 then RoundDiv(100 * (original - price), original)
    // a negative original above the price: the ratio (original - price) / original is negative
    else RoundDiv(100 * (price - original), -original)
  }

  /** A price between nothing and the original value shows a discount
      between 0% and 100%. */
  lemma DiscountInRange(price: int, original: int)
    requires 0 <= price < original
    ensures 0 <= CalculateDiscount(price, original) <= 100
  {
    RoundDivMonotonic(0, 100 * (original - price), original);
    RoundDivMonotonic(100 * (original - price), 100 * original, original);
    RoundDivExact(0, original);
    RoundDivExact(100, original);
  }

  /** A free bag is a 100% discount. */
  lemma FreeIsHundred(original: int)
    requires original > 0
    ensures CalculateDiscount(0, original) == 100
  {
    RoundDivExact(100, original);
  }

  /** Rounding an exact quotient gives the quotient. */
  lemma RoundDivExact(q: int, d: int)
    requires d > 0
    ensures RoundDiv(q * d, d) == q
  {
    var r := RoundDiv(q * d, d);
    if r < q {
      MulMonotonic(2 * d, r + 1, q);
      assert false;
    } else if r > q {
      MulMonotonic(2 * d, q + 1, r);
      assert false;
    }
  }

  /** Half price is a 50% discount. */
  lemma HalfPriceIsFifty(p: int)
    requires p > 0
    ensures CalculateDiscount(p, 2 * p) == 50
  {
    RoundDivExact(50, 2 * p);
    assert 100 * (2 * p - p) == 50 * (2 * p);
  }

  /** For a fixed positive original value, a higher price never shows a
      larger discount. */
  lemma {:induction false} DiscountMonotonic(p1: int, p2: int, original: int)
    requires original > 0 && p1 <= p2
    ensures CalculateDiscount(p1, original) >= CalculateDiscount(p2, original)
  {
    if p2 < original {
      RoundDivMonotonic(100 * (original - p2), 100 * (original - p1), original);
    } else if p1 < original {
      RoundDivMonotonic(0, 100 * (original - p1), original);
      RoundDivExact(0, original);
    }
  }
}
